=== FILE: README.md ===
# Expiry tracker core, modelled in Dafny

The application is an Android expiry tracker. The user records a product with
a production date and a shelf life in days. The app derives the expiry date,
stores the product in a Room table, mirrors the expiry as an event in the
device calendar, and shows each product with a status colour and a status
text. This project models the sequential logic behind that:

- **Dates** (`civil_date.dfy`, module `CivilDate`). This is the proleptic
  Gregorian calendar of ISO 8601 over the range of `java.time.LocalDate`
  (years -999,999,999 to 999,999,999), with the conversion to and from epoch
  days (1970-01-01 is day 0). It defines `plusDays`, `ChronoUnit.DAYS.between`
  and `isAfter`. The rest of the model stores dates as epoch days.
- **Numerals** (`numerals.dfy`, module `Numerals`). These are decimal
  rendering of a count (string templates) and Kotlin `String.toInt()`,
  including its `Int` overflow.
- **Product** (`product.dfy`, module `ProductModel`). This is the `Product`
  record, `isExpired` and `daysUntilExpiry`. The current day is an argument
  rather than `LocalDate.now()`.
- **Status** (`status.dfy`, module `Status`). These are the colour and text
  decisions of the product row.
- **Add form** (`add_form.dfy`, module `AddForm`). This is the digit filter on
  the shelf-life field and the ordered checks behind the save button.
- **Table** (`product_dao.dfy`, module `ProductDao`). This is the `products`
  table as a map from id to row. It covers the snapshot ordered by expiry date,
  lookup by id, insert with `REPLACE` and id generation, and update and delete
  by primary key.
- **Repository** (`product_repository.dfy`, module `ProductRepository`). Each
  write talks to the calendar first, then to the table. The calendar is an
  oracle whose answers are arguments. Each write reports the calendar calls it
  made, in order.
- **Calendar mirror** (`calendar_mirror.dfy`, module `CalendarMirror`). This
  replays those calls on the set of live event ids. It shows which writes keep
  every row's event live and unshared.
- **View model** (`product_view_model.dfy`, module `ProductViewModel`). This
  builds a new product from the form's values and passes updates and deletes
  through unchanged.

Four facts about the code shape the model:

- An update does not re-derive the expiry date from the production date and
  shelf life. It stores what it is given. `UpdateKeepsStaleExpiry` states this.
- Neither the table nor the repository validates a product. Only the form
  refuses a non-positive shelf life.
- Updating or deleting a missing id is a silent no-op, not an error.
- The snapshot order among rows with equal expiry dates is unspecified. Only
  the order by expiry date is stated.

Id generation follows SQLite's rules. The id column is
`INTEGER PRIMARY KEY AUTOINCREMENT`, and an id of 0 is bound as NULL. A new
row therefore gets one more than the largest id the table has ever used, so
deleted ids are never reused. Once `Long.MAX_VALUE` has been used, the insert
fails with `SQLITE_FULL`.

## Model

| member | source | states |
|---|---|---|
| `CivilDate.ToFromEpochDay` | app/src/main/java/com/expirytracker/data/model/Product.kt:12-14 | Every epoch day is the day number of a well-formed calendar date: converting a day to a date and back gives the same day. |
| `CivilDate.FromToEpochDay` | app/src/main/java/com/expirytracker/data/model/Product.kt:12-14 | Every well-formed date is recovered from its epoch day, so the conversion is a bijection. |
| `CivilDate.EpochDayOrder` | app/src/main/java/com/expirytracker/data/model/Product.kt:17-19 | Calendar order (year, then month, then day) is exactly epoch-day order, and two dates are equal exactly when their day numbers are. |
| `CivilDate.EpochDayRange` | app/src/main/java/com/expirytracker/data/model/Product.kt:12-14 | A date is inside the year range of `LocalDate` exactly when its epoch day lies between the two extreme day numbers. |
| `CivilDate.EpochDayBounds` | app/src/main/java/com/expirytracker/data/model/Product.kt:12-14 | The first and last days of the `LocalDate` range have day numbers -365243219162 and 365241780471. |
| `CivilDate.PlusDays` | app/src/main/java/com/expirytracker/ui/viewmodel/ProductViewModel.kt:36 | `plusDays` lands exactly n days later. It fails, where `LocalDate` throws, exactly when the result would leave the supported range. |
| `CivilDate.DaysBetweenPlusDays` | app/src/main/java/com/expirytracker/data/model/Product.kt:21-23 | Adding `DAYS.between(a, b)` days to `a` gives `b`. |
| `CivilDate.IsAfterIffNegativeDays` | app/src/main/java/com/expirytracker/data/model/Product.kt:17-23 | `a.isAfter(b)` holds exactly when `DAYS.between(a, b)` is negative. |
| `CivilDate.IsAfter` | app/src/main/java/com/expirytracker/data/model/Product.kt:18 | `LocalDate.isAfter` compares year, then month, then day. `EpochDayOrder` and `IsAfterIffNegativeDays` show it is exactly the later day number. |
| `CivilDate.DaysBetween` | app/src/main/java/com/expirytracker/data/model/Product.kt:22 | `ChronoUnit.DAYS.between(a, b)` is the difference of the day numbers. `DaysBetweenPlusDays` shows that adding it to `a` gives `b`, and `IsAfterIffNegativeDays` that it is negative exactly when `a` is after `b`. |
| `Numerals.Decimal` | app/src/main/java/com/expirytracker/ui/components/ProductItem.kt:34-37 | A count renders as a non-empty digit string with no leading zero, and that string denotes the count. |
| `Numerals.ParseInt` | app/src/main/java/com/expirytracker/ui/screens/AddProductScreen.kt:121 | `toInt()` rejects the empty string. On a digit string it succeeds exactly when the value fits an `Int`, and then returns that value. Any success is a digit string with at most one leading sign. |
| `Numerals.ParseIntDecimal` | app/src/main/java/com/expirytracker/ui/screens/AddProductScreen.kt:121 | Reading back the numeral of a count that fits an `Int` gives the count. |
| `ProductModel.DaysUntilExpiry` | app/src/main/java/com/expirytracker/data/model/Product.kt:17-23 | The day count is negative exactly when the product is expired. It is zero exactly on the expiry day, when the product is not yet expired. |
| `ProductModel.IsExpired` | app/src/main/java/com/expirytracker/data/model/Product.kt:17-19 | A product is expired when today is strictly after its expiry date, so not on the expiry day itself. `CalendarAgreement` shows it is `today.isAfter(expiryDate)` on calendar dates. |
| `ProductModel.DaysUntilExpiryAdvance` | app/src/main/java/com/expirytracker/data/model/Product.kt:21-23 | Moving today forward by k days lowers the day count by exactly k. |
| `ProductModel.CalendarAgreement` | app/src/main/java/com/expirytracker/data/model/Product.kt:17-23 | On calendar dates, `isExpired` is `today.isAfter(expiryDate)` and `daysUntilExpiry` is `DAYS.between(today, expiryDate)`. |
| `Status.Classify` | app/src/main/java/com/expirytracker/ui/components/ProductItem.kt:27-31 | Every day count gets exactly one colour: expired below 0, warning from 0 to 7, safe above 7. |
| `Status.ClassifyMonotone` | app/src/main/java/com/expirytracker/ui/components/ProductItem.kt:27-31 | More days left never gives a worse colour. |
| `Status.LabelOf` | app/src/main/java/com/expirytracker/ui/components/ProductItem.kt:27-38 | The expired text is chosen exactly when the expired colour is, with N = -days ≥ 1. 0 is "due today", 1 is "due tomorrow", and every count ≥ 2 (including 2..7 in the warning colour) is "N days left" with N = days. |
| `Status.LabelTextDeterminesDays` | app/src/main/java/com/expirytracker/ui/components/ProductItem.kt:33-38 | Two day counts that show the same text are equal, so the rendered text loses no information. |
| `Status.LabelText` | app/src/main/java/com/expirytracker/ui/components/ProductItem.kt:34-37 | The four texts: "已过期 N 天", "今天到期", "明天到期" and "还剩 N 天", with N as `Long.toString` prints it. `LabelTextDeterminesDays` shows that different day counts never render alike. |
| `AddForm.OnShelfLifeChange` | app/src/main/java/com/expirytracker/ui/screens/AddProductScreen.kt:85-89 | An edit is taken when it is empty or all digits. Otherwise the field keeps its previous value. |
| `AddForm.IsBlank` | app/src/main/java/com/expirytracker/ui/screens/AddProductScreen.kt:107-111 | Kotlin `isBlank`: the text is empty or consists only of whitespace as the JVM defines it. `OnSave` refuses exactly such a name or shelf life first. |
| `AddForm.ShelfLifeStaysNumeric` | app/src/main/java/com/expirytracker/ui/screens/AddProductScreen.kt:85-89 | Whatever sequence of edits is typed, the shelf-life field holds only digits. |
| `AddForm.OnSave` | app/src/main/java/com/expirytracker/ui/screens/AddProductScreen.kt:104-134 | The checks run in order: blank name, then blank shelf life, then a date or `toInt()` failure (both give the date-format message), then days ≤ 0, which gives "shelf life must be greater than 0". Save happens exactly when all pass, and receives the untrimmed name, the parsed date and the parsed days. Every error is one of the four messages. |
| `AddForm.OverflowReadsAsBadDate` | app/src/main/java/com/expirytracker/ui/screens/AddProductScreen.kt:116-132 | A digit string too large for an `Int` is reported with the date-format message. |
| `AddForm.ZeroShelfLifeRefused` | app/src/main/java/com/expirytracker/ui/screens/AddProductScreen.kt:121-124 | A zero shelf life, however many zeros are typed, gets "shelf life must be greater than 0" and nothing is saved. |
| `AddForm.SaveReadsTypedDays` | app/src/main/java/com/expirytracker/ui/screens/AddProductScreen.kt:115-127 | Typing the numeral of a positive count saves that count, together with the name and the parsed date. |
| `ProductDao.InsertionPoint` | app/src/main/java/com/expirytracker/data/database/ProductDao.kt:9-10 | A row's place in an expiry-ordered list comes after every row expiring no later and before every row expiring later. |
| `ProductDao.InsertByExpiry` | app/src/main/java/com/expirytracker/data/database/ProductDao.kt:9-10 | Placing a row keeps the list ordered by expiry date, and the result is the old list plus exactly that row, as a multiset. |
| `ProductDao.GetAllProducts` | app/src/main/java/com/expirytracker/data/database/ProductDao.kt:9-10 | The snapshot lists every stored row exactly once, each as stored under its id, in non-decreasing expiry order. |
| `ProductDao.GetProductById` | app/src/main/java/com/expirytracker/data/database/ProductDao.kt:12-13 | Lookup returns the row with that id, or nothing exactly when no row has it. |
| `ProductDao.GetAfterWrites` | app/src/main/java/com/expirytracker/data/database/ProductDao.kt:12-25 | Lookup after a write finds an inserted row under the returned id and an updated row as updated, and finds nothing under a deleted id. |
| `ProductDao.InsertProduct` | app/src/main/java/com/expirytracker/data/database/ProductDao.kt:15-16 | Afterwards the returned id maps to the product. A nonzero id is kept and replaces any row with it. Id 0 gets one more than the largest id ever used, which becomes the new largest. An explicit id above it becomes the new largest. Every other row is untouched. It fails only when id 0 is given and the id space is exhausted. |
| `ProductDao.InsertNewGrows` | app/src/main/java/com/expirytracker/data/database/ProductDao.kt:15-16 | Inserting an unsaved product grows the table by exactly one row. |
| `ProductDao.InsertExistingReplaces` | app/src/main/java/com/expirytracker/data/database/ProductDao.kt:15-16 | Inserting over an existing id replaces that row, and the table keeps its size. |
| `ProductDao.InsertsAllStored` | app/src/main/java/com/expirytracker/data/database/ProductDao.kt:15-16 | Inserting n unsaved products, while the id space has room for n more ids, stores all of them: the table gains n rows and the largest id grows by n. |
| `ProductDao.UpdateProduct` | app/src/main/java/com/expirytracker/data/database/ProductDao.kt:18-19 | Only the row with the product's id is replaced. The set of ids is unchanged, and with no such row the table is unchanged. |
| `ProductDao.DeleteProductById` | app/src/main/java/com/expirytracker/data/database/ProductDao.kt:24-25 | Only the row with that id is removed, and deleting an absent id changes nothing. |
| `ProductDao.DeleteProduct` | app/src/main/java/com/expirytracker/data/database/ProductDao.kt:21-22 | Only the row with the product's id is removed, and a product whose id is absent changes nothing. |
| `ProductDao.DeleteMatchesByKeyOnly` | app/src/main/java/com/expirytracker/data/database/ProductDao.kt:21-25 | Deleting a product deletes by its primary key alone, whatever its other fields hold, exactly as deleting by that id does. |
| `ProductDao.Run` | app/src/main/java/com/expirytracker/data/database/ProductDao.kt:15-25 | Across any sequence of inserts, updates and deletes, the table stays well formed and the largest id ever used never decreases. |
| `ProductDao.DeletedIdNotReissued` | app/src/main/java/com/expirytracker/data/database/ProductDao.kt:15-16 | An id the table has held, once deleted, is never generated for an unsaved product again, whatever writes come in between. |
| `ProductRepository.DeleteCall` | app/src/main/java/com/expirytracker/data/repository/ProductRepository.kt:34-36 | A product's event is deleted exactly when it has one, by that id, once. |
| `ProductRepository.Insert` | app/src/main/java/com/expirytracker/data/repository/ProductRepository.kt:17-31 | The calendar is asked exactly once, with the name and the expiry date. The stored row carries the new event id when there is one, otherwise the product's own. The other fields are as given and the store's id is returned. An unsaved product gets one more than the largest id ever used. Every other row is untouched. |
| `ProductRepository.InsertIndependentOfCalendar` | app/src/main/java/com/expirytracker/data/repository/ProductRepository.kt:24-30 | Insert reaches the table, with the same resulting id, whatever the calendar answered. |
| `ProductRepository.Update` | app/src/main/java/com/expirytracker/data/repository/ProductRepository.kt:33-46 | Update first deletes exactly the product's existing event, if any, then creates one. It stores the product with only the event id replaced by the creation result, touches no other row, and changes nothing if the id is absent. |
| `ProductRepository.Delete` | app/src/main/java/com/expirytracker/data/repository/ProductRepository.kt:48-53 | Delete asks for event deletion exactly when the product has an event, and removes the row whatever the calendar answered. |
| `ProductRepository.DeletionResultIgnored` | app/src/main/java/com/expirytracker/data/repository/ProductRepository.kt:34-36 | What the calendar answers to a deletion changes nothing in update or delete. |
| `ProductRepository.FailedCreationDiffers` | app/src/main/java/com/expirytracker/data/repository/ProductRepository.kt:24-28 | A failed creation clears an existing event id on update, but leaves the product's own event id on insert. |
| `ProductRepository.OnlyTargetChanges` | app/src/main/java/com/expirytracker/data/repository/ProductRepository.kt:30-52 | No repository write changes any row other than its target. |
| `CalendarMirror.Replay` | app/src/main/java/com/expirytracker/utils/CalendarUtils.kt:10-66 | Replaying calendar calls with the calendar's answers never makes any id live except the one the calendar answered. A refused deletion leaves the event live. |
| `CalendarMirror.ReplayWrite` | app/src/main/java/com/expirytracker/data/repository/ProductRepository.kt:33-42 | After an update's calls, the live events are the old ones plus the created one, minus the product's event only if the calendar deleted it. |
| `CalendarMirror.InsertKeepsMirror` | app/src/main/java/com/expirytracker/data/repository/ProductRepository.kt:17-31 | If every row's event is live and unshared, it stays so after inserting a product without an event, given an honest calendar. |
| `CalendarMirror.UpdateKeepsMirror` | app/src/main/java/com/expirytracker/data/repository/ProductRepository.kt:33-46 | The same holds after updating a product whose event belongs to no other row. |
| `CalendarMirror.DeleteKeepsMirror` | app/src/main/java/com/expirytracker/data/repository/ProductRepository.kt:48-53 | The same holds after deleting a product whose event belongs to no other row. |
| `CalendarMirror.UpdateOfMissingRowOrphansEvent` | app/src/main/java/com/expirytracker/data/repository/ProductRepository.kt:38-45 | Updating a product whose row is gone still creates a live event, and no row points to it. |
| `ProductViewModel.NewProduct` | app/src/main/java/com/expirytracker/ui/viewmodel/ProductViewModel.kt:36-42 | The new product has id 0, no event, and the name, production date and shelf life as given. Its day count on the production day equals the shelf life. It is built exactly when the expiry date is inside the `LocalDate` range. |
| `ProductViewModel.NewProductIsPlusDays` | app/src/main/java/com/expirytracker/ui/viewmodel/ProductViewModel.kt:36 | On calendar dates, the expiry date is `productionDate.plusDays(shelfLifeDays)`, and the two fail together. |
| `ProductViewModel.AddProduct` | app/src/main/java/com/expirytracker/ui/viewmodel/ProductViewModel.kt:30-45 | When the expiry date is out of range, neither the calendar nor the table is touched. Otherwise the calendar is asked once, and the product is stored exactly when the id space is not exhausted. The stored row then has a fresh id, the given values, expiry = production + shelf life, and the created event. The fresh id is one more than the largest id used before and becomes the new largest, and no other row changes. |
| `ProductViewModel.UpdateProduct` | app/src/main/java/com/expirytracker/ui/viewmodel/ProductViewModel.kt:47-51 | The product is forwarded unchanged. If its row exists, it is replaced by the product with only the event id set to the creation result. Otherwise the table is unchanged. `lastId` stays the same, no id is returned, and no other row changes. |
| `ProductViewModel.DeleteProduct` | app/src/main/java/com/expirytracker/ui/viewmodel/ProductViewModel.kt:53-57 | The product is forwarded unchanged. Its event is deleted if it has one, and exactly its row is removed. `lastId` stays the same and no id is returned. |
| `ProductViewModel.DeletedProductStaysGone` | app/src/main/java/com/expirytracker/ui/viewmodel/ProductViewModel.kt:53-57 | After a product is deleted, looking up its id finds nothing, and a product added afterwards is stored under a different id. |
| `ProductViewModel.UpdateKeepsStaleExpiry` | app/src/main/java/com/expirytracker/ui/viewmodel/ProductViewModel.kt:47-50 | An edited product whose expiry date no longer matches production date plus shelf life is stored that way. |
| `ProductViewModel.SavedFormIsStored` | app/src/main/java/com/expirytracker/ui/screens/AddProductScreen.kt:126 | A product the form accepts is stored exactly when its expiry date is inside the `LocalDate` range and the id space is not exhausted. It is stored with the typed name, and on its production day it is not expired and has a positive day count. Beyond that range, neither the calendar nor the table is touched. |

## Left out

- `CalendarUtils` I/O is not modelled: content-resolver calls, calendar lookup, epoch-millis and time-zone conversion, the reminder row, and the event title and description text. Event creation is an optional id and deletion a boolean. Both are arguments of each write. `CalendarMirror` assumes that a created id is not already live, that a deletion the calendar reports as successful removed the event, and that a creation answered with no id created no event.
- `getAllProducts` returns a `Flow`. It is modelled as one snapshot. Coroutines (`viewModelScope.launch`), `StateFlow` and `WhileSubscribed(5000)` are sequentialised away, and each write is one step.
- `AppDatabase` (the Room singleton and its initialisation) is not part of this model. The date type converters are not part of this model either. The snapshot order assumes they store dates in an order-preserving way, as epoch days do.
- Numerals.ParseInt: accepts ASCII digits only. Kotlin's `toInt()` also accepts other Unicode decimal digits.
- AddForm.OnShelfLifeChange: the digit filter (`Numerals.IsDigit`) accepts ASCII digits only. Kotlin's `isDigit` also accepts other Unicode decimal digits.
- Date parsing (`LocalDate.parse` with `yyyy-MM-dd`) is an abstract partial function passed to `AddForm.OnSave`. Its exact grammar is not modelled.
- `AddForm.IsWhitespace` follows `Character.isWhitespace` or `Character.isSpaceChar` of current JDKs. Older JDKs also count U+180E, which is not modelled.
- The user interface is not modelled: Compose layout, colour values, navigation, permissions, and the date picker's millisecond conversion.
- `ProductRepository.getAllProducts` and `getProductById` are not modelled separately, because they only forward to `ProductDao.GetAllProducts` and `ProductDao.GetProductById`.
- `ProductViewModel.AddProduct`: the SQLite failure is modelled as a `None` id with the table unchanged. In the app it is an exception inside the coroutine, after the calendar event has been created.
- CalendarMirror.Replay: a creation answered with no id adds nothing to the live set. In the app, `addEventToCalendar` inserts the event (CalendarUtils.kt:31) before it reads the id (:32). If the id is not a number, or the reminder insert (:52) throws `SecurityException` (caught at :39), it returns `null` while the event stays in the calendar. The mirror lemmas do not cover that orphaned event.
- ProductRepository.Insert: the calendar's answer is an optional id, so a throw is not modelled. `addEventToCalendar` catches only `SecurityException` (CalendarUtils.kt:39). For an expiry date after 292278994-08-17, `toEpochMilli()` (:18) throws `ArithmeticException` whenever a calendar exists. On insert that exception escapes before the row is stored (ProductRepository.kt:30). On update it escapes after the old event was deleted (:35) and before the row is rewritten (:45), so the row keeps pointing at a deleted event. `InsertIndependentOfCalendar` and `UpdateKeepsMirror` do not cover this case.
- ProductViewModel.NewProduct: when `plusDays` throws, the model records only that neither the calendar nor the table is touched. In the app the `DateTimeException` escapes `viewModelScope.launch`, which has no handler, so the app crashes.

=== FILE: add_form.dfy ===
/**
 * The add-product form: the filter on the shelf-life field and the decision
 * the save button takes. Date parsing (`LocalDate.parse` with the pattern
 * `yyyy-MM-dd`) is a parameter: a partial function from text to epoch day.
 */
module AddForm {
  import opened Wrappers
  import opened Numerals
  import opened CivilDate

  /** The error texts, in the order the checks run. */
  const NameMissing: string := "请输入商品名称"
  const ShelfLifeMissing: string := "请输入保质期天数"
  const ShelfLifeNotPositive: string := "保质期必须大于0"
  const BadDate: string := "日期格式错误，请使用 yyyy-MM-dd 格式"

  /** What pressing save does: show an error, or hand the product data on. */
  datatype SaveOutcome =
    | ShowError(message: string)
    | Save(name: string, productionDate: EpochDay, shelfLifeDays: Int32)

  /**
   * Kotlin `Char.isWhitespace` on the JVM: `Character.isWhitespace` or
   * `Character.isSpaceChar`.
   */
  predicate IsWhitespace(c: char) {
    ('\U{9}' <= c <= '\U{D}') || ('\U{1C}' <= c <= '\U{20}')
    || c == '\U{A0}' || c == '\U{1680}' || ('\U{2000}' <= c <= '\U{200A}')
    || c == '\U{2028}' || c == '\U{2029}' || c == '\U{202F}' || c == '\U{205F}'
    || c == '\U{3000}'
  }

  /** Kotlin `CharSequence.isBlank`: empty or only whitespace. */
  predicate IsBlank(s: string) {
    forall i :: 0 <= i < |s| ==> IsWhitespace(s[i])
  }

  /** The shelf-life field keeps an edit only if it is empty or all digits. */
  function OnShelfLifeChange(current: string, edit: string): (next: string)
    ensures AllDigits(edit) ==> next == edit
    ensures !AllDigits(edit) ==> next == current
  {
    if |edit| == 0 || AllDigits(edit) then edit else current
  }

  /** The shelf-life field after a sequence of edits, starting from the empty field. */
  function ShelfLifeAfter(edits: seq<string>): string
    decreases |edits|
  {
    if |edits| == 0 then ""
    else OnShelfLifeChange(ShelfLifeAfter(edits[..|edits| - 1]), edits[|edits| - 1])
  }

  /** Whatever the user types, the shelf-life field only ever holds digits. */
  lemma {:induction false} ShelfLifeStaysNumeric(edits: seq<string>)
    ensures AllDigits(ShelfLifeAfter(edits))
    decreases |edits|
  {
    if |edits| > 0 {
      ShelfLifeStaysNumeric(edits[..|edits| - 1]);
    }
  }

  /**
   * The save button. Checks run in order: blank name, blank shelf life, then
   * (inside one `try`) the date parse and `toInt()`, whose failures both show
   * the date-format message, then a non-positive day count.
   */
  function OnSave(name: string, dateText: string, shelfLifeText: string,
                  parseDate: string -> Option<EpochDay>): (r: SaveOutcome)
    ensures IsBlank(name) ==> r == ShowError(NameMissing)
    ensures !IsBlank(name) && IsBlank(shelfLifeText) ==> r == ShowError(ShelfLifeMissing)
    ensures (!IsBlank(name) && !IsBlank(shelfLifeText) && parseDate(dateText).None?)
            ==> r == ShowError(BadDate)
    ensures (!IsBlank(name) && !IsBlank(shelfLifeText) && ParseInt(shelfLifeText).None?)
            ==> r == ShowError(BadDate)
    ensures (!IsBlank(name) && !IsBlank(shelfLifeText) && parseDate(dateText).Some?
             && ParseInt(shelfLifeText).Some? && ParseInt(shelfLifeText).value <= 0)
            ==> r == ShowError(ShelfLifeNotPositive)
    ensures r.Save? <==>
              !IsBlank(name) && !IsBlank(shelfLifeText) && parseDate(dateText).Some?
              && ParseInt(shelfLifeText).Some? && ParseInt(shelfLifeText).value > 0
    ensures r.Save? ==>
              r.name == name && r.productionDate == parseDate(dateText).value
              && r.shelfLifeDays == ParseInt(shelfLifeText).value
    ensures r.ShowError? ==>
              r.message in {NameMissing, ShelfLifeMissing, BadDate, ShelfLifeNotPositive}
  {
    if IsBlank(name) then ShowError(NameMissing)
    else if IsBlank(shelfLifeText) then ShowError(ShelfLifeMissing)
    else
      match parseDate(dateText)
      case None => ShowError(BadDate)
      case Some(date) =>
        match ParseInt(shelfLifeText)
        case None => ShowError(BadDate)
        case Some(days) =>
          if days <= 0 then ShowError(ShelfLifeNotPositive) else Save(name, date, days)
  }

  /** A digit string too large for an `Int` is reported with the date-format message. */
  lemma OverflowReadsAsBadDate(name: string, dateText: string, shelfLifeText: string,
                               parseDate: string -> Option<EpochDay>)
    requires !IsBlank(name) && |shelfLifeText| > 0 && AllDigits(shelfLifeText)
    requires DigitsValue(shelfLifeText) > IntMax
    ensures OnSave(name, dateText, shelfLifeText, parseDate) == ShowError(BadDate)
  {
    assert !IsBlank(shelfLifeText) by {
      assert !IsWhitespace(shelfLifeText[0]);
    }
    var n := ParseInt(shelfLifeText);
    assert n.None?;
    var r := OnSave(name, dateText, shelfLifeText, parseDate);
    assert r == ShowError(BadDate);
  }

  /** A well-formed date with an all-zero shelf life is refused as non-positive. */
  lemma ZeroShelfLifeRefused(name: string, dateText: string, shelfLifeText: string,
                             parseDate: string -> Option<EpochDay>)
    requires !IsBlank(name) && parseDate(dateText).Some?
    requires |shelfLifeText| > 0 && AllDigits(shelfLifeText) && DigitsValue(shelfLifeText) == 0
    ensures OnSave(name, dateText, shelfLifeText, parseDate) == ShowError(ShelfLifeNotPositive)
  {
    assert !IsBlank(shelfLifeText) by {
      assert !IsWhitespace(shelfLifeText[0]);
    }
    var n := ParseInt(shelfLifeText);
    assert n == Some(0);
    var r := OnSave(name, dateText, shelfLifeText, parseDate);
    assert r == ShowError(ShelfLifeNotPositive);
  }

  /** Typing the numeral of a positive day count saves exactly that count. */
  lemma SaveReadsTypedDays(name: string, dateText: string, days: nat,
                           parseDate: string -> Option<EpochDay>)
    requires !IsBlank(name) && parseDate(dateText).Some?
    requires 0 < days <= IntMax
    ensures OnSave(name, dateText, Decimal(days), parseDate)
         == Save(name, parseDate(dateText).value, days)
  {
    ParseIntDecimal(days);
    assert !IsWhitespace(Decimal(days)[0]);
  }
}

=== FILE: calendar_mirror.dfy ===
/**
 * How the table and the calendar stay in step. The calendar is a set of live
 * event ids; replaying a write's calendar calls on it, with the calendar's
 * answers, gives the set afterwards. A deletion the calendar refuses (no such
 * event, or permission denied) leaves the set as it was.
 * While each row's event is live and no two rows share one, and the calendar
 * hands out ids it does not hold already, three writes keep it that way: the
 * insert of a product without an event, and the update or delete of a product
 * whose event no other row points to. The converse does not hold: a write can
 * leave a live event that no row points to.
 */
module CalendarMirror {
  import opened Wrappers
  import opened ProductModel
  import opened ProductDao
  import opened ProductRepository

  /**
   * The live events after `calls`, where each deletion answered `deleted` and
   * each creation answered `created`.
   */
  function Replay(live: set<Int64>, calls: seq<CalendarCall>, deleted: bool, created: Option<Int64>): (r: set<Int64>)
    ensures r <= live + AnswerSet(created)
    ensures !deleted ==> live <= r
    decreases |calls|
  {
    if calls == [] then live
    else
      var next := match calls[0]
        case DeleteEvent(e) => if deleted then live - {e} else live
        case CreateEvent(_, _) => live + AnswerSet(created);
      Replay(next, calls[1..], deleted, created)
  }

  /** The id a creation answered with, as a set. */
  function AnswerSet(created: Option<Int64>): (r: set<Int64>)
    ensures created.None? <==> r == {}
    ensures created.Some? ==> r == {created.value}
  {
    if created.Some? then {created.value} else {}
  }

  /** The events a product's write removes: its own, if it has one and the calendar deleted it. */
  function Removed(p: Product, deleted: bool): (r: set<Int64>)
    ensures r == {} <==> p.calendarEventId.None? || !deleted
    ensures r != {} ==> r == {p.calendarEventId.value}
  {
    if p.calendarEventId.Some? && deleted then {p.calendarEventId.value} else {}
  }

  /** Replaying the deletion of the product's event takes it out of the live set, if the calendar deleted it. */
  lemma ReplayDeleteCall(live: set<Int64>, p: Product, deleted: bool, created: Option<Int64>)
    ensures Replay(live, DeleteCall(p), deleted, created) == live - Removed(p, deleted)
  {
    if p.calendarEventId.Some? {
      assert DeleteCall(p)[1..] == [];
    }
  }

  /** Replaying the calls of a write: first the deletion, if any, then the creation. */
  lemma ReplayWrite(live: set<Int64>, p: Product, deleted: bool, created: Option<Int64>)
    ensures Replay(live, DeleteCall(p) + [CreateEvent(p.name, p.expiryDate)], deleted, created)
            == (live - Removed(p, deleted)) + AnswerSet(created)
  {
    var c := CreateEvent(p.name, p.expiryDate);
    if p.calendarEventId.Some? {
      var e := p.calendarEventId.value;
      var calls := DeleteCall(p) + [c];
      assert calls[0] == DeleteEvent(e) && calls[1..] == [c];
      var rest := live - Removed(p, deleted);
      assert rest == if deleted then live - {e} else live;
      assert Replay(live, calls, deleted, created) == Replay(rest, [c], deleted, created);
      assert [c][1..] == [];
      assert Replay(rest, [c], deleted, created) == Replay(rest + AnswerSet(created), [], deleted, created);
    } else {
      assert ([] + [c])[1..] == [];
    }
  }

  /** An honest calendar hands out only ids it does not hold already. */
  predicate FreshAnswer(live: set<Int64>, created: Option<Int64>) {
    created.None? || created.value !in live
  }

  /** Every event a row points to is live, and no two rows point to the same event. */
  predicate Mirrored(s: Store, live: set<Int64>) {
    && (forall k :: k in s.rows && s.rows[k].calendarEventId.Some? ==>
          s.rows[k].calendarEventId.value in live)
    && (forall a, b :: a in s.rows && b in s.rows && a != b && s.rows[a].calendarEventId.Some? ==>
          s.rows[a].calendarEventId != s.rows[b].calendarEventId)
  }

  /** The product's event, if it has one, belongs to no other row. */
  predicate OwnsEvent(s: Store, p: Product) {
    p.calendarEventId.Some? ==>
      forall k :: k in s.rows && k != p.id ==> s.rows[k].calendarEventId != p.calendarEventId
  }

  /** Inserting a new product, which carries no event yet, keeps the mirror. */
  lemma InsertKeepsMirror(s: Store, live: set<Int64>, p: Product, created: Option<Int64>)
    requires Valid(s) && Mirrored(s, live) && FreshAnswer(live, created)
    requires p.calendarEventId.None?
    ensures var r := Insert(s, p, created);
            Mirrored(r.store, Replay(live, r.calls, false, created))
  {
    var r := Insert(s, p, created);
    var live' := Replay(live, r.calls, false, created);
    assert r.calls == DeleteCall(p) + [CreateEvent(p.name, p.expiryDate)];
    ReplayWrite(live, p, false, created);
    assert live' == live + AnswerSet(created);
    if r.id.Some? {
      var id := r.id.value;
      assert r.store.rows[id].calendarEventId == created;
      forall a, b | a in r.store.rows && b in r.store.rows && a != b
                    && r.store.rows[a].calendarEventId.Some?
        ensures r.store.rows[a].calendarEventId != r.store.rows[b].calendarEventId
      {
        if a == id {
          assert r.store.rows[b] == s.rows[b];
        } else if b == id {
          assert r.store.rows[a] == s.rows[a];
        } else {
          assert r.store.rows[a] == s.rows[a] && r.store.rows[b] == s.rows[b];
        }
      }
    }
  }

  /** Updating a product whose event is its own keeps the mirror. */
  lemma UpdateKeepsMirror(s: Store, live: set<Int64>, p: Product, deleted: bool, created: Option<Int64>)
    requires Valid(s) && Mirrored(s, live) && FreshAnswer(live, created)
    requires OwnsEvent(s, p)
    ensures var r := Update(s, p, deleted, created);
            Mirrored(r.store, Replay(live, r.calls, deleted, created))
  {
    var r := Update(s, p, deleted, created);
    var live' := Replay(live, r.calls, deleted, created);
    ReplayWrite(live, p, deleted, created);
    assert live' == (live - Removed(p, deleted)) + AnswerSet(created);
    forall k | k in r.store.rows && r.store.rows[k].calendarEventId.Some?
      ensures r.store.rows[k].calendarEventId.value in live'
    {
      if k != p.id {
        assert r.store.rows[k] == s.rows[k];
      }
    }
    forall a, b | a in r.store.rows && b in r.store.rows && a != b
                  && r.store.rows[a].calendarEventId.Some?
      ensures r.store.rows[a].calendarEventId != r.store.rows[b].calendarEventId
    {
      if a == p.id {
        assert r.store.rows[b] == s.rows[b];
      } else if b == p.id {
        assert r.store.rows[a] == s.rows[a];
      } else {
        assert r.store.rows[a] == s.rows[a] && r.store.rows[b] == s.rows[b];
      }
    }
  }

  /** Deleting a product whose event is its own keeps the mirror. */
  lemma DeleteKeepsMirror(s: Store, live: set<Int64>, p: Product, deleted: bool)
    requires Valid(s) && Mirrored(s, live)
    requires OwnsEvent(s, p)
    ensures var r := Delete(s, p, deleted);
            Mirrored(r.store, Replay(live, r.calls, deleted, None))
  {
    var r := Delete(s, p, deleted);
    var live' := Replay(live, r.calls, deleted, None);
    ReplayDeleteCall(live, p, deleted, None);
    assert live' == live - Removed(p, deleted);
    forall k | k in r.store.rows && r.store.rows[k].calendarEventId.Some?
      ensures r.store.rows[k].calendarEventId.value in live'
    {
      assert r.store.rows[k] == s.rows[k];
    }
  }

  /**
   * Updating a product that is no longer in the table still creates an event,
   * and no row points to it.
   */
  lemma UpdateOfMissingRowOrphansEvent(s: Store, live: set<Int64>, p: Product, deleted: bool, e: Int64)
    requires Valid(s) && Mirrored(s, live) && FreshAnswer(live, Some(e))
    requires p.id !in s.rows
    ensures var r := Update(s, p, deleted, Some(e));
            && e in Replay(live, r.calls, deleted, Some(e))
            && forall k :: k in r.store.rows ==> r.store.rows[k].calendarEventId != Some(e)
  {
    var r := Update(s, p, deleted, Some(e));
    assert r.store == s;
    ReplayWrite(live, p, deleted, Some(e));
  }
}

=== FILE: civil_date.dfy ===
/**
 * Dates of the proleptic Gregorian calendar (ISO 8601), as `java.time.LocalDate`
 * represents them, and their epoch-day numbering (1970-01-01 is day 0).
 *
 * The rest of the model works on epoch days; this module shows that epoch days
 * are an exact stand-in for civil dates: the numbering is a bijection that
 * preserves order, `PlusDays` and `DaysBetween` are inverse to each other, and
 * the numbering agrees with `LocalDate.MIN` / `LocalDate.MAX`.
 */
module CivilDate {
  import opened Wrappers

  /** Year bounds of `LocalDate` (`Year.MIN_VALUE`, `Year.MAX_VALUE`). */
  const MinYear: int := -999_999_999
  const MaxYear: int := 999_999_999

  /** Epoch days of `LocalDate.MIN` and `LocalDate.MAX`. */
  const MinEpochDay: int := -365_243_219_162
  const MaxEpochDay: int := 365_241_780_471

  /** The day numbers that denote a `LocalDate`. */
  type EpochDay = d: int | MinEpochDay <= d <= MaxEpochDay

  datatype Date = Date(year: int, month: int, day: int)

  predicate IsLeapYear(y: int) {
    y % 4 == 0 && (y % 100 != 0 || y % 400 == 0)
  }

  function YearLength(y: int): int {
    if IsLeapYear(y) then 366 else 365
  }

  function MonthLength(y: int, m: int): int
    requires 1 <= m <= 12
  {
    if m == 2 then (if IsLeapYear(y) then 29 else 28)
    else if m == 4 || m == 6 || m == 9 || m == 11 then 30
    else 31
  }

  /** Days in the months of year `y` before month `m`. */
  function DaysBeforeMonth(y: int, m: int): int
    requires 1 <= m <= 12
  {
    var leap := if IsLeapYear(y) && m > 2 then 1 else 0;
    leap + (
      if m == 1 then 0 else if m == 2 then 31 else if m == 3 then 59
      else if m == 4 then 90 else if m == 5 then 120 else if m == 6 then 151
      else if m == 7 then 181 else if m == 8 then 212 else if m == 9 then 243
      else if m == 10 then 273 else if m == 11 then 304 else 334)
  }

  /**
   * Days from 0000-01-01 to the first day of year `y` (negative before year 0):
   * 365 per year plus one for each leap year in between. There are 146097 days
   * in every 400 years.
   */
  function DaysBeforeYear(y: int): int {
    365 * y + (y + 3) / 4 - (y + 99) / 100 + (y + 399) / 400
  }

  /** A month and day that exist in the given year (any year). */
  predicate WellFormed(d: Date) {
    1 <= d.month <= 12 && 1 <= d.day <= MonthLength(d.year, d.month)
  }

  /** A date `LocalDate` can hold. */
  predicate IsValid(d: Date) {
    WellFormed(d) && MinYear <= d.year <= MaxYear
  }

  /** `LocalDate.compareTo`: year, then month, then day. */
  predicate IsBefore(a: Date, b: Date) {
    a.year < b.year
    || (a.year == b.year && a.month < b.month)
    || (a.year == b.year && a.month == b.month && a.day < b.day)
  }

  /** `LocalDate.isAfter`. */
  predicate IsAfter(a: Date, b: Date) {
    IsBefore(b, a)
  }

  /** Day number counted from 1970-01-01, which lies 719528 days after 0000-01-01. */
  function ToEpochDay(d: Date): int
    requires WellFormed(d)
  {
    DaysBeforeYear(d.year) + DaysBeforeMonth(d.year, d.month) + d.day - 1 - 719528
  }

  lemma CeilStep4(y: int)
    ensures (y + 4) / 4 == (y + 3) / 4 + (if y % 4 == 0 then 1 else 0)
  {
  }

  lemma CeilStep100(y: int)
    ensures (y + 100) / 100 == (y + 99) / 100 + (if y % 100 == 0 then 1 else 0)
  {
  }

  lemma CeilStep400(y: int)
    ensures (y + 400) / 400 == (y + 399) / 400 + (if y % 400 == 0 then 1 else 0)
  {
  }

  /** Consecutive year starts are one year length apart. */
  lemma DaysBeforeYearStep(y: int)
    ensures DaysBeforeYear(y + 1) == DaysBeforeYear(y) + YearLength(y)
  {
    CeilStep4(y);
    CeilStep100(y);
    CeilStep400(y);
    DivisorChain(y);
    var a := if y % 4 == 0 then 1 else 0;
    var b := if y % 100 == 0 then 1 else 0;
    var c := if y % 400 == 0 then 1 else 0;
    assert DaysBeforeYear(y + 1) == DaysBeforeYear(y) + 365 + a - b + c;
    assert YearLength(y) == 365 + a - b + c;
  }

  /** A multiple of 400 is a multiple of 100, and a multiple of 100 a multiple of 4. */
  lemma DivisorChain(y: int)
    ensures y % 400 == 0 ==> y % 100 == 0
    ensures y % 100 == 0 ==> y % 4 == 0
  {
    if y % 400 == 0 {
      assert y == 100 * (4 * (y / 400));
      Div100Shift(0, 4 * (y / 400));
    }
    if y % 100 == 0 {
      assert y == 4 * (25 * (y / 100));
      Div4Shift(0, 25 * (y / 100));
    }
  }

  lemma {:induction false} DaysBeforeYearMonotone(a: int, b: int)
    requires a <= b
    ensures DaysBeforeYear(a) <= DaysBeforeYear(b)
    decreases b - a
  {
    if a < b {
      DaysBeforeYearStep(a);
      DaysBeforeYearMonotone(a + 1, b);
    }
  }

  lemma Div4Shift(x: int, k: int)
    ensures (x + 4 * k) / 4 == x / 4 + k && (x + 4 * k) % 4 == x % 4
  {
  }

  lemma Div100Shift(x: int, k: int)
    ensures (x + 100 * k) / 100 == x / 100 + k && (x + 100 * k) % 100 == x % 100
  {
  }

  lemma Div400Shift(x: int, k: int)
    ensures (x + 400 * k) / 400 == x / 400 + k && (x + 400 * k) % 400 == x % 400
  {
  }

  /** Shifting a year by whole 400-year cycles shifts its day count by whole cycles. */
  lemma DaysBeforeYearCycle(q: int, yy: int)
    ensures DaysBeforeYear(400 * q + yy) == 146097 * q + DaysBeforeYear(yy)
    ensures IsLeapYear(400 * q + yy) == IsLeapYear(yy)
  {
    Div4Shift(yy + 3, 100 * q);
    Div100Shift(yy + 99, 4 * q);
    Div400Shift(yy + 399, q);
    Div4Shift(yy, 100 * q);
    Div100Shift(yy, 4 * q);
    Div400Shift(yy, q);
  }

  /** The year of the current cycle in which day `r` of the cycle falls. */
  function FindYear(r: int, yy: int): (y: int)
    requires 0 <= yy < 400 && DaysBeforeYear(yy) <= r < 146097
    ensures yy <= y < 400
    ensures DaysBeforeYear(y) <= r < DaysBeforeYear(y + 1)
    decreases 400 - yy
  {
    DaysBeforeYearStep(yy);
    if r < DaysBeforeYear(yy + 1) then yy else FindYear(r, yy + 1)
  }

  /** The month of year `y` in which day-of-year `doy` (from 0) falls. */
  function FindMonth(doy: int, y: int, m: int): (mm: int)
    requires 1 <= m <= 12 && DaysBeforeMonth(y, m) <= doy < YearLength(y)
    ensures m <= mm <= 12
    ensures DaysBeforeMonth(y, mm) <= doy < DaysBeforeMonth(y, mm) + MonthLength(y, mm)
    decreases 12 - m
  {
    if doy < DaysBeforeMonth(y, m) + MonthLength(y, m) then m else FindMonth(doy, y, m + 1)
  }

  /** The date on day `r` (from 0) of the 400-year cycle starting at 0000-01-01. */
  function DateInCycle(r: int): Date
    requires 0 <= r < 146097
  {
    var yy := FindYear(r, 0);
    var doy := r - DaysBeforeYear(yy);
    DaysBeforeYearStep(yy);
    var m := FindMonth(doy, yy, 1);
    Date(yy, m, doy - DaysBeforeMonth(yy, m) + 1)
  }

  lemma DateInCycleValid(r: int)
    requires 0 <= r < 146097
    ensures WellFormed(DateInCycle(r)) && 0 <= DateInCycle(r).year < 400
    ensures ToEpochDay(DateInCycle(r)) + 719528 == r
  {
    DaysBeforeYearStep(FindYear(r, 0));
  }

  /** The date `q` whole 400-year cycles after `d`. */
  function ShiftCycles(d: Date, q: int): Date {
    Date(400 * q + d.year, d.month, d.day)
  }

  /** Moving a date by whole 400-year cycles moves its day number by whole cycles of days. */
  lemma ShiftCyclesValid(d: Date, q: int)
    requires WellFormed(d)
    ensures WellFormed(ShiftCycles(d, q))
    ensures ToEpochDay(ShiftCycles(d, q)) == 146097 * q + ToEpochDay(d)
  {
    DaysBeforeYearCycle(q, d.year);
  }

  /** `LocalDate.ofEpochDay`, without its range check. */
  function FromEpochDay(n: int): Date {
    var z := n + 719528;
    ShiftCycles(DateInCycle(z % 146097), z / 146097)
  }

  /** Every day number is the number of a calendar date: the numbering is onto. */
  lemma ToFromEpochDay(n: int)
    ensures WellFormed(FromEpochDay(n))
    ensures ToEpochDay(FromEpochDay(n)) == n
  {
    var z := n + 719528;
    var q, r := z / 146097, z % 146097;
    DateInCycleValid(r);
    ShiftCyclesValid(DateInCycle(r), q);
  }

  lemma YearOfDayUnique(r: int, a: int, b: int)
    requires DaysBeforeYear(a) <= r < DaysBeforeYear(a + 1)
    requires DaysBeforeYear(b) <= r < DaysBeforeYear(b + 1)
    ensures a == b
  {
    if a < b {
      DaysBeforeYearMonotone(a + 1, b);
    } else if b < a {
      DaysBeforeYearMonotone(b + 1, a);
    }
  }

  lemma MonthOfDayUnique(doy: int, y: int, a: int, b: int)
    requires 1 <= a <= 12 && 1 <= b <= 12
    requires DaysBeforeMonth(y, a) <= doy < DaysBeforeMonth(y, a) + MonthLength(y, a)
    requires DaysBeforeMonth(y, b) <= doy < DaysBeforeMonth(y, b) + MonthLength(y, b)
    ensures a == b
  {
  }

  /** Day `doy` (from 0) of year `y` of the first cycle is day `DaysBeforeYear(y) + doy` of the cycle. */
  lemma DayInCycleBounds(y: int, doy: int)
    requires 0 <= y < 400 && 0 <= doy < YearLength(y)
    ensures 0 <= DaysBeforeYear(y) + doy < 146097
    ensures FindYear(DaysBeforeYear(y) + doy, 0) == y
  {
    var r := DaysBeforeYear(y) + doy;
    assert 0 <= DaysBeforeYear(y) && DaysBeforeYear(y + 1) <= 146097 by {
      DaysBeforeYearMonotone(0, y);
      DaysBeforeYearMonotone(y + 1, 400);
    }
    assert DaysBeforeYear(y) <= r < DaysBeforeYear(y + 1) by {
      DaysBeforeYearStep(y);
    }
    YearOfDayUnique(r, y, FindYear(r, 0));
  }

  /** Within the first 400-year cycle, a date is recovered from its day number. */
  lemma DateInCycleInverse(d: Date)
    requires WellFormed(d) && 0 <= d.year < 400
    ensures 0 <= ToEpochDay(d) + 719528 < 146097
    ensures DateInCycle(ToEpochDay(d) + 719528) == d
  {
    var y := d.year;
    var doy := DaysBeforeMonth(y, d.month) + d.day - 1;
    var r := DaysBeforeYear(y) + doy;
    assert ToEpochDay(d) + 719528 == r;
    DayInCycleBounds(y, doy);
    assert FindMonth(doy, y, 1) == d.month by {
      MonthOfDayUnique(doy, y, d.month, FindMonth(doy, y, 1));
    }
  }

  /** Euclidean division by the cycle length has a unique quotient and remainder. */
  lemma CycleDivision(z: int, q: int, r: int)
    requires z == 146097 * q + r && 0 <= r < 146097
    ensures z / 146097 == q && z % 146097 == r
  {
  }

  /** The date of a day number is found by splitting it into whole cycles and a day of the cycle. */
  lemma FromEpochDaySplit(n: int, q: int, r: int)
    requires 0 <= r < 146097 && n + 719528 == 146097 * q + r
    ensures FromEpochDay(n) == ShiftCycles(DateInCycle(r), q)
  {
    var z := n + 719528;
    CycleDivision(z, q, r);
    calc {
      FromEpochDay(n);
      ShiftCycles(DateInCycle(z % 146097), z / 146097);
      ShiftCycles(DateInCycle(r), q);
    }
  }

  /** Every calendar date is recovered from its epoch day: the numbering is injective. */
  lemma FromToEpochDay(d: Date)
    requires WellFormed(d)
    ensures FromEpochDay(ToEpochDay(d)) == d
  {
    var q := d.year / 400;
    var d0 := Date(d.year % 400, d.month, d.day);
    assert d.year == 400 * q + d0.year;
    DaysBeforeYearCycle(q, d0.year);
    assert WellFormed(d0);
    assert ShiftCycles(d0, q) == d;
    ShiftCyclesValid(d0, q);
    DateInCycleInverse(d0);
    FromEpochDaySplit(ToEpochDay(d), q, ToEpochDay(d0) + 719528);
  }

  /** Every date of a year lies before every date of a later year. */
  lemma EarlierYearFirst(a: Date, b: Date)
    requires WellFormed(a) && WellFormed(b) && a.year < b.year
    ensures ToEpochDay(a) < ToEpochDay(b)
  {
    DaysBeforeYearStep(a.year);
    DaysBeforeYearMonotone(a.year + 1, b.year);
  }

  /** The numbering preserves the order of `LocalDate.compareTo`. */
  lemma EpochDayOrder(a: Date, b: Date)
    requires WellFormed(a) && WellFormed(b)
    ensures IsBefore(a, b) <==> ToEpochDay(a) < ToEpochDay(b)
    ensures a == b <==> ToEpochDay(a) == ToEpochDay(b)
  {
    if a.year < b.year {
      EarlierYearFirst(a, b);
    } else if b.year < a.year {
      EarlierYearFirst(b, a);
    }
    if ToEpochDay(a) == ToEpochDay(b) {
      FromToEpochDay(a);
      FromToEpochDay(b);
    }
  }

  /** `LocalDate.MIN` and `LocalDate.MAX` sit at the ends of the `EpochDay` range. */
  lemma EpochDayBounds()
    ensures ToEpochDay(Date(MinYear, 1, 1)) == MinEpochDay
    ensures ToEpochDay(Date(MaxYear, 12, 31)) == MaxEpochDay
  {
  }

  /** An epoch day in range denotes a valid `LocalDate`, and a valid date has an epoch day in range. */
  lemma EpochDayRange(d: Date)
    requires WellFormed(d)
    ensures IsValid(d) <==> MinEpochDay <= ToEpochDay(d) <= MaxEpochDay
  {
    EpochDayBounds();
    EpochDayOrder(Date(MinYear, 1, 1), d);
    EpochDayOrder(d, Date(MaxYear, 12, 31));
  }

  /** `LocalDate.plusDays`: `None` where the source throws `DateTimeException`. */
  function PlusDays(d: Date, n: int): (r: Option<Date>)
    requires IsValid(d)
    ensures r.Some? ==> IsValid(r.value) && ToEpochDay(r.value) == ToEpochDay(d) + n
    ensures r.None? <==> !(MinEpochDay <= ToEpochDay(d) + n <= MaxEpochDay)
  {
    var e := ToEpochDay(d) + n;
    if MinEpochDay <= e <= MaxEpochDay then
      ToFromEpochDay(e);
      EpochDayRange(FromEpochDay(e));
      Some(FromEpochDay(e))
    else None
  }

  /** `ChronoUnit.DAYS.between(a, b)`. */
  function DaysBetween(a: Date, b: Date): int
    requires WellFormed(a) && WellFormed(b)
  {
    ToEpochDay(b) - ToEpochDay(a)
  }

  /**
   * Counting the days from `a` to `b` and adding them to `a` gives back `b`
   * (the converse direction is the first `ensures` of `PlusDays`).
   */
  lemma DaysBetweenPlusDays(a: Date, b: Date)
    requires IsValid(a) && IsValid(b)
    ensures PlusDays(a, DaysBetween(a, b)) == Some(b)
  {
    var e := ToEpochDay(a) + DaysBetween(a, b);
    assert e == ToEpochDay(b);
    assert MinEpochDay <= e <= MaxEpochDay by {
      EpochDayRange(b);
    }
    assert FromEpochDay(e) == b by {
      FromToEpochDay(b);
    }
  }

  /** `a.isAfter(b)` exactly when `DaysBetween(a, b)` is negative. */
  lemma IsAfterIffNegativeDays(a: Date, b: Date)
    requires WellFormed(a) && WellFormed(b)
    ensures IsAfter(a, b) <==> DaysBetween(a, b) < 0
  {
    EpochDayOrder(b, a);
  }
}

=== FILE: numerals.dfy ===
/**
 * Decimal numerals: how the app renders a day count (Kotlin string templates
 * of a `Long`) and how it reads one back (Kotlin `String.toInt()`).
 */
module Numerals {
  import opened Wrappers

  /** Bounds of a Kotlin `Int`. */
  const IntMin: int := -0x8000_0000
  const IntMax: int := 0x7fff_ffff

  type Int32 = x: int | IntMin <= x <= IntMax

  predicate IsDigit(c: char) {
    '0' <= c <= '9'
  }

  /** Every character is a decimal digit (true of the empty string). */
  predicate AllDigits(s: string) {
    forall i :: 0 <= i < |s| ==> IsDigit(s[i])
  }

  function DigitValue(c: char): nat
    requires IsDigit(c)
  {
    (c as int) - ('0' as int)
  }

  function DigitChar(d: nat): (c: char)
    requires d < 10
    ensures IsDigit(c) && DigitValue(c) == d
  {
    (('0' as int) + d) as char
  }

  /** The number a string of digits denotes, most significant digit first. */
  function DigitsValue(s: string): nat
    requires AllDigits(s)
  {
    if |s| == 0 then 0
    else DigitsValue(s[..|s| - 1]) * 10 + DigitValue(s[|s| - 1])
  }

  /** The shortest decimal numeral of `n`, as `n.toString()` prints it. */
  function Decimal(n: nat): (s: string)
    ensures |s| >= 1 && AllDigits(s)
    ensures s[0] == '0' ==> n == 0
    ensures DigitsValue(s) == n
  {
    if n < 10 then [DigitChar(n)]
    else
      var prefix := Decimal(n / 10);
      var s := prefix + [DigitChar(n % 10)];
      assert s[..|s| - 1] == prefix;
      s
  }

  /**
   * Kotlin `String.toInt()`: an optional `+` or `-` followed by at least one
   * digit, whose value fits an `Int`; `None` where it throws
   * `NumberFormatException`.
   */
  function ParseInt(s: string): (r: Option<Int32>)
    ensures |s| == 0 ==> r.None?
    ensures |s| > 0 && AllDigits(s) ==>
              (r.Some? <==> DigitsValue(s) <= IntMax) && (r.Some? ==> r.value == DigitsValue(s))
    ensures r.Some? ==> AllDigits(s) || (|s| >= 2 && (s[0] == '+' || s[0] == '-') && AllDigits(s[1..]))
  {
    if |s| == 0 then None
    else if s[0] < '0' then
      if |s| == 1 then None
      else if s[0] == '-' then
        if AllDigits(s[1..]) && DigitsValue(s[1..]) <= -IntMin then Some(-(DigitsValue(s[1..]) as int)) else None
      else if s[0] == '+' then
        if AllDigits(s[1..]) && DigitsValue(s[1..]) <= IntMax then Some(DigitsValue(s[1..])) else None
      else None
    else if AllDigits(s) && DigitsValue(s) <= IntMax then Some(DigitsValue(s))
    else None
  }

  /** Reading back a rendered count gives the count. */
  lemma ParseIntDecimal(n: nat)
    requires n <= IntMax
    ensures ParseInt(Decimal(n)) == Some(n)
  {
  }
}

=== FILE: product.dfy ===
/**
 * The `Product` record and the two date queries it answers. `LocalDate.now()`
 * is not called: the current day is the `today` argument.
 */
module ProductModel {
  import opened Wrappers
  import opened CivilDate
  import opened Numerals

  /** A Kotlin `Long`. */
  type Int64 = x: int | -0x8000_0000_0000_0000 <= x <= 0x7fff_ffff_ffff_ffff

  /** The id a product carries before the store assigns one. */
  const UnsavedId: Int64 := 0

  /**
   * One row of the `products` table. Dates are epoch days; `calendarEventId`
   * is the id of the mirrored calendar event, if one was created.
   */
  datatype Product = Product(
    id: Int64,
    name: string,
    productionDate: EpochDay,
    shelfLifeDays: Int32,
    expiryDate: EpochDay,
    calendarEventId: Option<Int64>)

  /** `Product.isExpired`: today is strictly after the expiry date. */
  predicate IsExpired(p: Product, today: EpochDay) {
    today > p.expiryDate
  }

  /** `Product.daysUntilExpiry`: whole days from today to the expiry date. */
  function DaysUntilExpiry(p: Product, today: EpochDay): (n: int)
    ensures n < 0 <==> IsExpired(p, today)
    ensures n == 0 <==> today == p.expiryDate
  {
    p.expiryDate - today
  }

  /** Each day that passes brings the expiry date one day closer. */
  lemma DaysUntilExpiryAdvance(p: Product, today: EpochDay, k: int)
    requires MinEpochDay <= today + k <= MaxEpochDay
    ensures DaysUntilExpiry(p, today + k) == DaysUntilExpiry(p, today) - k
  {
  }

  /**
   * On calendar dates, `isExpired` is `LocalDate.isAfter` and `daysUntilExpiry`
   * is `ChronoUnit.DAYS.between`: the epoch-day versions above agree with both.
   */
  lemma CalendarAgreement(p: Product, today: Date)
    requires IsValid(today)
    ensures MinEpochDay <= ToEpochDay(today) <= MaxEpochDay
    ensures WellFormed(FromEpochDay(p.expiryDate))
    ensures IsExpired(p, ToEpochDay(today)) <==> CivilDate.IsAfter(today, FromEpochDay(p.expiryDate))
    ensures DaysUntilExpiry(p, ToEpochDay(today)) == DaysBetween(today, FromEpochDay(p.expiryDate))
  {
    EpochDayRange(today);
    ToFromEpochDay(p.expiryDate);
    EpochDayOrder(FromEpochDay(p.expiryDate), today);
  }
}

=== FILE: product_dao.dfy ===
/**
 * The `products` table behind `ProductDao`, as an immutable value.
 *
 * Rows are keyed by `id`. The id column is `INTEGER PRIMARY KEY AUTOINCREMENT`
 * with 0 meaning "not set": inserting a product whose id is 0 takes the next
 * id after the largest one the table has ever used (`lastId`), so ids are never
 * reused; that fails with `SQLITE_FULL` once `Long.MAX_VALUE` has been used.
 */
module ProductDao {
  import opened Wrappers
  import opened ProductModel

  const MaxId: Int64 := 0x7fff_ffff_ffff_ffff

  /** The rows, and the largest id ever used (0 for a table never written). */
  datatype Store = Store(rows: map<Int64, Product>, lastId: Int64)

  /** Every row is filed under its own id, which is never 0 and never above `lastId`. */
  predicate Valid(s: Store) {
    && s.lastId >= 0
    && forall k :: k in s.rows ==> s.rows[k].id == k && k != UnsavedId && k <= s.lastId
  }

  /** `a` and `b` hold the same rows under every id but `id`. */
  ghost predicate SameExcept(a: map<Int64, Product>, b: map<Int64, Product>, id: Int64) {
    forall k :: k != id ==> (k in a <==> k in b) && (k in a ==> a[k] == b[k])
  }

  predicate SortedByExpiry(ps: seq<Product>) {
    forall i, j :: 0 <= i < j < |ps| ==> ps[i].expiryDate <= ps[j].expiryDate
  }

  /**
   * `ps` lists every row of `rows` exactly once, ordered by expiry date.
   * Rows with equal expiry dates may come in any order.
   */
  predicate IsSnapshot(rows: map<Int64, Product>, ps: seq<Product>) {
    && SortedByExpiry(ps)
    && |ps| == |rows|
    && (forall i :: 0 <= i < |ps| ==> ps[i].id in rows && rows[ps[i].id] == ps[i])
    && (forall i, j :: 0 <= i < j < |ps| ==> ps[i].id != ps[j].id)
    && (forall k :: k in rows ==> rows[k] in ps)
  }

  /** Where `p` goes in `ps`: after every row expiring no later, before every row expiring later. */
  function InsertionPoint(ps: seq<Product>, p: Product): (j: nat)
    requires SortedByExpiry(ps)
    ensures j <= |ps|
    ensures forall i :: 0 <= i < j ==> ps[i].expiryDate <= p.expiryDate
    ensures forall i :: j <= i < |ps| ==> ps[i].expiryDate > p.expiryDate
  {
    if |ps| == 0 || p.expiryDate < ps[0].expiryDate then 0
    else 1 + InsertionPoint(ps[1..], p)
  }

  /** `ps` with `p` placed at its insertion point. */
  function InsertByExpiry(ps: seq<Product>, p: Product): (r: seq<Product>)
    requires SortedByExpiry(ps)
    ensures |r| == |ps| + 1 && SortedByExpiry(r)
    ensures forall x :: x in r <==> x in ps || x == p
    ensures multiset(r) == multiset(ps) + multiset{p}
  {
    var j := InsertionPoint(ps, p);
    Splice(ps, j, p);
    ps[..j] + [p] + ps[j..]
  }

  /** `p` spliced into `ps` at `j`: where each element comes from, and nothing else changes. */
  lemma Splice(ps: seq<Product>, j: nat, p: Product)
    requires j <= |ps|
    ensures var r := ps[..j] + [p] + ps[j..];
            && |r| == |ps| + 1 && r[j] == p
            && (forall i :: 0 <= i < j ==> r[i] == ps[i])
            && (forall i :: j < i < |r| ==> r[i] == ps[i - 1])
            && multiset(r) == multiset(ps) + multiset{p}
  {
    assert ps == ps[..j] + ps[j..];
  }

  /** Where each element of `InsertByExpiry(ps, p)` comes from. */
  lemma InsertByExpiryShape(ps: seq<Product>, p: Product)
    requires SortedByExpiry(ps)
    ensures var j := InsertionPoint(ps, p);
            var r := InsertByExpiry(ps, p);
            && r[j] == p
            && (forall i :: 0 <= i < j ==> r[i] == ps[i])
            && (forall i :: j < i < |r| ==> r[i] == ps[i - 1])
  {
  }

  /** The loop invariant of `GetAllProducts`: `ps` is a snapshot of the rows under the ids in `done`. */
  ghost predicate SnapshotOf(rows: map<Int64, Product>, done: set<Int64>, ps: seq<Product>) {
    && done <= rows.Keys
    && |ps| == |done|
    && SortedByExpiry(ps)
    && (forall i :: 0 <= i < |ps| ==> ps[i].id in done && rows[ps[i].id] == ps[i])
    && (forall i, j :: 0 <= i < j < |ps| ==> ps[i].id != ps[j].id)
    && (forall k :: k in done ==> rows[k] in ps)
  }

  /** Inserting a row whose id `ps` lacks keeps the ids of `ps` distinct. */
  lemma InsertKeepsIdsDistinct(ps: seq<Product>, p: Product)
    requires SortedByExpiry(ps)
    requires forall i, j :: 0 <= i < j < |ps| ==> ps[i].id != ps[j].id
    requires forall i :: 0 <= i < |ps| ==> ps[i].id != p.id
    ensures var r := InsertByExpiry(ps, p);
            forall a, b :: 0 <= a < b < |r| ==> r[a].id != r[b].id
  {
    var r := InsertByExpiry(ps, p);
    var j := InsertionPoint(ps, p);
    InsertByExpiryShape(ps, p);
    forall a, b | 0 <= a < b < |r|
      ensures r[a].id != r[b].id
    {
      if a == j {
        assert r[b] == ps[b - 1];
      } else if b == j {
        assert r[a] == ps[a];
      } else {
        var a', b' := (if a < j then a else a - 1), (if b < j then b else b - 1);
        assert r[a] == ps[a'] && r[b] == ps[b'];
      }
    }
  }

  /** Adding the row under a new id to a partial snapshot gives a partial snapshot. */
  lemma SnapshotStep(rows: map<Int64, Product>, done: set<Int64>, ps: seq<Product>, k: Int64)
    requires forall id :: id in rows ==> rows[id].id == id
    requires SnapshotOf(rows, done, ps) && k in rows && k !in done
    ensures SnapshotOf(rows, done + {k}, InsertByExpiry(ps, rows[k]))
  {
    var p := rows[k];
    var r := InsertByExpiry(ps, p);
    InsertKeepsIdsDistinct(ps, p);
    forall i | 0 <= i < |r|
      ensures r[i].id in done + {k} && rows[r[i].id] == r[i]
    {
      assert r[i] in r;
    }
  }

  /** A partial snapshot that has visited every id is a snapshot. */
  lemma SnapshotComplete(rows: map<Int64, Product>, ps: seq<Product>)
    requires SnapshotOf(rows, rows.Keys, ps)
    ensures IsSnapshot(rows, ps)
  {
    assert |rows.Keys| == |rows|;
  }

  /** `SELECT * FROM products ORDER BY expiryDate ASC`, as one snapshot of the table. */
  method GetAllProducts(s: Store) returns (ps: seq<Product>)
    requires Valid(s)
    ensures IsSnapshot(s.rows, ps)
  {
    ps := [];
    var todo := s.rows.Keys;
    while todo != {}
      invariant todo <= s.rows.Keys
      invariant SnapshotOf(s.rows, s.rows.Keys - todo, ps)
      decreases |todo|
    {
      var k :| k in todo;
      SnapshotStep(s.rows, s.rows.Keys - todo, ps, k);
      assert (s.rows.Keys - todo) + {k} == s.rows.Keys - (todo - {k});
      ps := InsertByExpiry(ps, s.rows[k]);
      todo := todo - {k};
    }
    SnapshotComplete(s.rows, ps);
  }

  /** `getProductById`: the row with that id, if there is one. */
  function GetProductById(s: Store, id: Int64): (r: Option<Product>)
    requires Valid(s)
    ensures r.Some? <==> id in s.rows
    ensures r.Some? ==> r.value == s.rows[id] && r.value.id == id
  {
    if id in s.rows then Some(s.rows[id]) else None
  }

  /**
   * Lookup after a write: an inserted row is found under the id the insert
   * returned, an updated row is found as updated, and a deleted id is gone.
   */
  lemma GetAfterWrites(s: Store, p: Product, id: Int64)
    requires Valid(s)
    ensures var r := InsertProduct(s, p);
            r.Some? ==> GetProductById(r.value.store, r.value.id) == Some(p.(id := r.value.id))
    ensures p.id in s.rows ==> GetProductById(UpdateProduct(s, p), p.id) == Some(p)
    ensures GetProductById(DeleteProductById(s, id), id) == None
  {
  }

  /** A successful insert: the new table and the id the row was stored under. */
  datatype Inserted = Inserted(store: Store, id: Int64)

  /**
   * `insertProduct` with `OnConflictStrategy.REPLACE`. An id of 0 is replaced
   * by a fresh one; any other id overwrites the row with that id, if any.
   * `None` is the `SQLITE_FULL` failure.
   */
  function InsertProduct(s: Store, p: Product): (r: Option<Inserted>)
    requires Valid(s)
    ensures r.None? <==> p.id == UnsavedId && s.lastId == MaxId
    ensures r.Some? ==> Valid(r.value.store) && r.value.store.lastId >= s.lastId
    ensures r.Some? ==> r.value.id in r.value.store.rows
                        && r.value.store.rows[r.value.id] == p.(id := r.value.id)
    ensures r.Some? && p.id != UnsavedId ==> r.value.id == p.id
    ensures r.Some? && p.id == UnsavedId ==> r.value.id !in s.rows && r.value.id > s.lastId
    ensures r.Some? && p.id == UnsavedId ==>
              r.value.id == s.lastId + 1 && r.value.store.lastId == r.value.id
    ensures r.Some? && p.id != UnsavedId ==>
              r.value.store.lastId == (if p.id > s.lastId then p.id else s.lastId)
    ensures r.Some? ==> SameExcept(s.rows, r.value.store.rows, r.value.id)
  {
    if p.id == UnsavedId then
      if s.lastId == MaxId then None
      else
        var id: Int64 := s.lastId + 1;
        Some(Inserted(Store(s.rows[id := p.(id := id)], id), id))
    else
      var lastId: Int64 := if p.id > s.lastId then p.id else s.lastId;
      Some(Inserted(Store(s.rows[p.id := p], lastId), p.id))
  }

  /** An insert with id 0 adds a row: the table grows by exactly one. */
  lemma InsertNewGrows(s: Store, p: Product)
    requires Valid(s) && p.id == UnsavedId && s.lastId < MaxId
    ensures InsertProduct(s, p).Some?
    ensures |InsertProduct(s, p).value.store.rows| == |s.rows| + 1
  {
    var r := InsertProduct(s, p).value;
    assert r.store.rows.Keys == s.rows.Keys + {r.id};
  }

  /** The writes that insert each of `ps` in turn. */
  function Inserts(ps: seq<Product>): (ws: seq<Write>)
    ensures |ws| == |ps|
    ensures forall i :: 0 <= i < |ps| ==> ws[i] == InsertWrite(ps[i])
  {
    if ps == [] then [] else [InsertWrite(ps[0])] + Inserts(ps[1..])
  }

  /**
   * Inserting n unsaved products, while the id space has room for n more ids,
   * stores every one of them: the table grows by n rows and `lastId` by n.
   */
  lemma {:induction false} InsertsAllStored(s: Store, ps: seq<Product>)
    requires Valid(s) && s.lastId + |ps| <= MaxId
    requires forall i :: 0 <= i < |ps| ==> ps[i].id == UnsavedId
    ensures var r := Run(s, Inserts(ps));
            |r.rows| == |s.rows| + |ps| && r.lastId == s.lastId + |ps|
    decreases |ps|
  {
    if ps != [] {
      InsertNewGrows(s, ps[0]);
      var next := InsertProduct(s, ps[0]).value.store;
      assert Inserts(ps)[1..] == Inserts(ps[1..]);
      InsertsAllStored(next, ps[1..]);
    }
  }

  /** An insert over an existing id replaces that row: the table keeps its size. */
  lemma InsertExistingReplaces(s: Store, p: Product)
    requires Valid(s) && p.id in s.rows
    ensures InsertProduct(s, p).Some?
    ensures |InsertProduct(s, p).value.store.rows| == |s.rows|
  {
    var r := InsertProduct(s, p).value;
    assert r.store.rows.Keys == s.rows.Keys;
  }

  /** `updateProduct`: overwrites the row with the product's id; no such row, no change. */
  function UpdateProduct(s: Store, p: Product): (r: Store)
    requires Valid(s)
    ensures Valid(r) && r.lastId == s.lastId
    ensures r.rows.Keys == s.rows.Keys
    ensures p.id in s.rows ==> r.rows[p.id] == p
    ensures p.id !in s.rows ==> r == s
    ensures SameExcept(s.rows, r.rows, p.id)
  {
    if p.id in s.rows then Store(s.rows[p.id := p], s.lastId) else s
  }

  /** `deleteProductById`: removes the row with that id, if any. */
  function DeleteProductById(s: Store, id: Int64): (r: Store)
    requires Valid(s)
    ensures Valid(r) && r.lastId == s.lastId
    ensures r.rows.Keys == s.rows.Keys - {id}
    ensures SameExcept(s.rows, r.rows, id)
    ensures id !in s.rows ==> r == s
  {
    Store(s.rows - {id}, s.lastId)
  }

  /** `deleteProduct`: deletes by primary key, whatever the other fields hold. */
  function DeleteProduct(s: Store, p: Product): (r: Store)
    requires Valid(s)
    ensures Valid(r) && r.lastId == s.lastId
    ensures r.rows.Keys == s.rows.Keys - {p.id}
    ensures SameExcept(s.rows, r.rows, p.id)
    ensures p.id !in s.rows ==> r == s
  {
    DeleteProductById(s, p.id)
  }

  /** Only the primary key of the given product matters to `deleteProduct`. */
  lemma DeleteMatchesByKeyOnly(s: Store, p: Product, q: Product)
    requires Valid(s) && p.id == q.id
    ensures DeleteProduct(s, p) == DeleteProduct(s, q)
    ensures DeleteProduct(s, p) == DeleteProductById(s, p.id)
  {
  }

  /** One write to the table, as the DAO offers them. */
  datatype Write = InsertWrite(p: Product) | UpdateWrite(p: Product) | DeleteWrite(id: Int64)

  /** The table after a sequence of writes; a refused insert leaves it as it was. */
  function Run(s: Store, writes: seq<Write>): (r: Store)
    requires Valid(s)
    ensures Valid(r) && r.lastId >= s.lastId
    decreases |writes|
  {
    if |writes| == 0 then s
    else
      var next := match writes[0]
        case InsertWrite(p) =>
          (match InsertProduct(s, p) case None => s case Some(ins) => ins.store)
        case UpdateWrite(p) => UpdateProduct(s, p)
        case DeleteWrite(id) => DeleteProductById(s, id);
      Run(next, writes[1..])
  }

  /**
   * An id the table has held is never generated again: after any later
   * writes, an insert of an unsaved product gets a different id.
   */
  lemma DeletedIdNotReissued(s: Store, k: Int64, writes: seq<Write>, p: Product)
    requires Valid(s) && k in s.rows && p.id == UnsavedId
    ensures var r := InsertProduct(Run(DeleteProductById(s, k), writes), p);
            r.None? || r.value.id != k
  {
    var t := Run(DeleteProductById(s, k), writes);
    assert k <= t.lastId;
  }
}

=== FILE: product_repository.dfy ===
/**
 * `ProductRepository`: each write first talks to the device calendar, then to
 * the table. The calendar is an oracle. Its answers are arguments: `created` is
 * what event creation returned (an event id, or nothing when there is no
 * calendar or permission is refused), and `deleted` is what event deletion
 * returned. Each operation also reports the calendar calls it made, in order.
 */
module ProductRepository {
  import opened Wrappers
  import opened CivilDate
  import opened ProductModel
  import opened ProductDao

  /** One request to the calendar: create a reminder event, or delete one by id. */
  datatype CalendarCall = CreateEvent(title: string, date: EpochDay) | DeleteEvent(eventId: Int64)

  /**
   * After a write: the table, the calendar calls made, and for an insert the id
   * the row was stored under (`None` when the table refused the row).
   */
  datatype Outcome = Outcome(store: Store, calls: seq<CalendarCall>, id: Option<Int64>)

  /** The deletion request for the product's event, if it has one. */
  function DeleteCall(p: Product): (calls: seq<CalendarCall>)
    ensures |calls| <= 1
    ensures calls != [] <==> p.calendarEventId.Some?
    ensures calls != [] ==> calls[0] == DeleteEvent(p.calendarEventId.value)
  {
    match p.calendarEventId
    case None => []
    case Some(e) => [DeleteEvent(e)]
  }

  /**
   * `insertProduct`: creates an event named after the product on its expiry
   * date, records the event id in the product when there is one, and inserts
   * the product. A creation that fails with no id does not stop the insert;
   * one that throws past `addEventToCalendar` is not modelled.
   */
  function Insert(s: Store, p: Product, created: Option<Int64>): (r: Outcome)
    requires Valid(s)
    ensures Valid(r.store)
    ensures r.calls == [CreateEvent(p.name, p.expiryDate)]
    ensures r.id.None? <==> p.id == UnsavedId && s.lastId == MaxId
    ensures r.id.None? ==> r.store == s
    ensures r.id.Some? ==>
              && r.id.value in r.store.rows
              && var q := r.store.rows[r.id.value];
                 && q.name == p.name && q.productionDate == p.productionDate
                 && q.shelfLifeDays == p.shelfLifeDays && q.expiryDate == p.expiryDate
                 && q.calendarEventId == (if created.Some? then created else p.calendarEventId)
    ensures r.id.Some? && p.id != UnsavedId ==> r.id.value == p.id
    ensures r.id.Some? && p.id == UnsavedId ==> r.id.value !in s.rows && r.id.value > s.lastId
    ensures r.id.Some? && p.id == UnsavedId ==> r.id.value == s.lastId + 1 && r.store.lastId == r.id.value
    ensures r.id.Some? ==> SameExcept(s.rows, r.store.rows, r.id.value)
  {
    var q := if created.Some? then p.(calendarEventId := created) else p;
    match InsertProduct(s, q)
    case None => Outcome(s, [CreateEvent(p.name, p.expiryDate)], None)
    case Some(ins) => Outcome(ins.store, [CreateEvent(p.name, p.expiryDate)], Some(ins.id))
  }

  /**
   * `updateProduct`: deletes the product's old event if it has one, creates a
   * new one, and stores the product with the new creation result as its event
   * id. Nothing else about the product is recomputed.
   */
  function Update(s: Store, p: Product, deleted: bool, created: Option<Int64>): (r: Outcome)
    requires Valid(s)
    ensures Valid(r.store) && r.store.lastId == s.lastId && r.id.None?
    ensures r.calls == DeleteCall(p) + [CreateEvent(p.name, p.expiryDate)]
    ensures r.store.rows.Keys == s.rows.Keys
    ensures p.id in s.rows ==> r.store.rows[p.id] == p.(calendarEventId := created)
    ensures p.id !in s.rows ==> r.store == s
    ensures SameExcept(s.rows, r.store.rows, p.id)
  {
    var calls := DeleteCall(p) + [CreateEvent(p.name, p.expiryDate)];
    Outcome(UpdateProduct(s, p.(calendarEventId := created)), calls, None)
  }

  /** `deleteProduct`: deletes the product's event if it has one, then its row. */
  function Delete(s: Store, p: Product, deleted: bool): (r: Outcome)
    requires Valid(s)
    ensures Valid(r.store) && r.store.lastId == s.lastId && r.id.None?
    ensures r.calls == DeleteCall(p)
    ensures r.store.rows.Keys == s.rows.Keys - {p.id}
    ensures SameExcept(s.rows, r.store.rows, p.id)
  {
    Outcome(DeleteProduct(s, p), DeleteCall(p), None)
  }

  /** Neither update nor delete looks at what the calendar said about the deletion. */
  lemma DeletionResultIgnored(s: Store, p: Product, created: Option<Int64>)
    requires Valid(s)
    ensures Update(s, p, true, created) == Update(s, p, false, created)
    ensures Delete(s, p, true) == Delete(s, p, false)
  {
  }

  /** Insert stores the row whether or not the calendar produced an event. */
  lemma InsertIndependentOfCalendar(s: Store, p: Product, created: Option<Int64>)
    requires Valid(s)
    ensures Insert(s, p, created).id.Some? <==> Insert(s, p, None).id.Some?
    ensures Insert(s, p, created).id == Insert(s, p, None).id
  {
  }

  /**
   * A failed creation during update clears the event id, even when the product
   * had one before; during insert it leaves the product's own event id.
   */
  lemma FailedCreationDiffers(s: Store, p: Product)
    requires Valid(s) && p.id in s.rows && p.calendarEventId.Some?
    ensures Update(s, p, true, None).store.rows[p.id].calendarEventId.None?
    ensures Insert(s, p, None).store.rows[p.id].calendarEventId == p.calendarEventId
  {
  }

  /**
   * No write changes a row other than its target: the product's id, or the
   * fresh id an insert of an unsaved product was given.
   */
  lemma OnlyTargetChanges(s: Store, p: Product, deleted: bool, created: Option<Int64>, k: Int64)
    requires Valid(s) && k in s.rows && k != p.id
    ensures var r := Insert(s, p, created).store; k in r.rows && r.rows[k] == s.rows[k]
    ensures var r := Update(s, p, deleted, created).store; k in r.rows && r.rows[k] == s.rows[k]
    ensures var r := Delete(s, p, deleted).store; k in r.rows && r.rows[k] == s.rows[k]
  {
    var r := Insert(s, p, created);
    if r.id.Some? {
      assert r.id.value != k by {
        if p.id == UnsavedId {
          assert r.id.value !in s.rows;
        }
      }
    }
  }
}

=== FILE: product_view_model.dfy ===
/**
 * `ProductViewModel`: builds a new product from the add form's values and hands
 * writes to the repository. The coroutine each write runs in is left out: a
 * write is one call. The exception `plusDays` throws beyond the range of
 * `LocalDate` is raised before the repository is reached; the model records
 * only that neither the calendar nor the table is touched.
 */
module ProductViewModel {
  import opened Wrappers
  import opened CivilDate
  import opened Numerals
  import opened ProductModel
  import ProductDao
  import opened ProductRepository
  import AddForm

  /**
   * The product `addProduct` submits: no id yet, no calendar event, the form's
   * values, and an expiry date `shelfLifeDays` days after production. `None`
   * when that date is outside the range of `LocalDate`, where `plusDays` throws.
   */
  function NewProduct(name: string, productionDate: EpochDay, shelfLifeDays: Int32): (r: Option<Product>)
    ensures r.None? <==> !(MinEpochDay <= productionDate + shelfLifeDays <= MaxEpochDay)
    ensures r.Some? ==> r.value.id == UnsavedId && r.value.calendarEventId.None?
    ensures r.Some? ==>
              && r.value.name == name && r.value.productionDate == productionDate
              && r.value.shelfLifeDays == shelfLifeDays
    ensures r.Some? ==> DaysUntilExpiry(r.value, productionDate) == shelfLifeDays
  {
    var expiry := productionDate + shelfLifeDays;
    if MinEpochDay <= expiry <= MaxEpochDay then
      Some(Product(UnsavedId, name, productionDate, shelfLifeDays, expiry, None))
    else None
  }

  /** On calendar dates, the expiry date is `LocalDate.plusDays` of the production date. */
  lemma NewProductIsPlusDays(name: string, production: Date, shelfLifeDays: Int32)
    requires IsValid(production)
    ensures MinEpochDay <= ToEpochDay(production) <= MaxEpochDay
    ensures var n := NewProduct(name, ToEpochDay(production), shelfLifeDays);
            && (n.Some? <==> PlusDays(production, shelfLifeDays).Some?)
            && (n.Some? ==> FromEpochDay(n.value.expiryDate) == PlusDays(production, shelfLifeDays).value)
  {
    EpochDayRange(production);
    var e := ToEpochDay(production);
    var n := NewProduct(name, e, shelfLifeDays);
    var d := PlusDays(production, shelfLifeDays);
    assert n.Some? <==> d.Some?;
    if d.Some? {
      assert ToEpochDay(d.value) == n.value.expiryDate;
      FromToEpochDay(d.value);
    }
  }

  /** `addProduct`: builds the product and inserts it through the repository. */
  function AddProduct(s: ProductDao.Store, name: string, productionDate: EpochDay, shelfLifeDays: Int32,
                      created: Option<Int64>): (r: Outcome)
    requires ProductDao.Valid(s)
    ensures ProductDao.Valid(r.store)
    ensures NewProduct(name, productionDate, shelfLifeDays).None? ==> r.store == s && r.calls == [] && r.id.None?
    ensures NewProduct(name, productionDate, shelfLifeDays).Some? ==>
              r.calls == [CreateEvent(name, productionDate + shelfLifeDays)]
    ensures NewProduct(name, productionDate, shelfLifeDays).Some? ==>
              (r.id.Some? <==> s.lastId < ProductDao.MaxId)
    ensures r.id.None? ==> r.store == s
    ensures r.id.Some? ==>
              && r.id.value !in s.rows && r.id.value in r.store.rows
              && var q := r.store.rows[r.id.value];
                 && q == Product(r.id.value, name, productionDate, shelfLifeDays,
                                 productionDate + shelfLifeDays, created)
    ensures r.id.Some? ==> r.id.value > s.lastId
    ensures r.id.Some? ==> r.id.value == s.lastId + 1 && r.store.lastId == r.id.value
    ensures r.id.Some? ==> ProductDao.SameExcept(s.rows, r.store.rows, r.id.value)
  {
    match NewProduct(name, productionDate, shelfLifeDays)
    case None => Outcome(s, [], None)
    case Some(p) => Insert(s, p, created)
  }

  /** `updateProduct`: the repository's update of the product exactly as given. */
  function UpdateProduct(s: ProductDao.Store, p: Product, deleted: bool, created: Option<Int64>): (r: Outcome)
    requires ProductDao.Valid(s)
    ensures ProductDao.Valid(r.store) && r.store.lastId == s.lastId && r.id.None?
    ensures r.calls == DeleteCall(p) + [CreateEvent(p.name, p.expiryDate)]
    ensures r.store.rows.Keys == s.rows.Keys
    ensures p.id in s.rows ==> r.store.rows[p.id] == p.(calendarEventId := created)
    ensures p.id !in s.rows ==> r.store == s
    ensures ProductDao.SameExcept(s.rows, r.store.rows, p.id)
  {
    Update(s, p, deleted, created)
  }

  /** `deleteProduct`: the repository's delete of the product exactly as given. */
  function DeleteProduct(s: ProductDao.Store, p: Product, deleted: bool): (r: Outcome)
    requires ProductDao.Valid(s)
    ensures ProductDao.Valid(r.store) && r.store.lastId == s.lastId && r.id.None?
    ensures r.calls == DeleteCall(p)
    ensures r.store.rows.Keys == s.rows.Keys - {p.id}
    ensures ProductDao.SameExcept(s.rows, r.store.rows, p.id)
  {
    Delete(s, p, deleted)
  }

  /**
   * A deleted product is gone for good: looking it up finds nothing, and a
   * product added afterwards is never given its id.
   */
  lemma DeletedProductStaysGone(s: ProductDao.Store, p: Product, deleted: bool,
                                name: string, productionDate: EpochDay, shelfLifeDays: Int32,
                                created: Option<Int64>)
    requires ProductDao.Valid(s) && p.id in s.rows
    ensures var d := DeleteProduct(s, p, deleted).store;
            && ProductDao.GetProductById(d, p.id).None?
            && var a := AddProduct(d, name, productionDate, shelfLifeDays, created);
               a.id.Some? ==> a.id.value != p.id && a.id.value in a.store.rows
  {
  }

  /**
   * An edited product keeps whatever expiry date it carries: when that date no
   * longer matches production date plus shelf life, the stored row does not
   * either.
   */
  lemma UpdateKeepsStaleExpiry(s: ProductDao.Store, p: Product, deleted: bool, created: Option<Int64>)
    requires ProductDao.Valid(s) && p.id in s.rows
    requires p.expiryDate != p.productionDate + p.shelfLifeDays
    ensures var q := UpdateProduct(s, p, deleted, created).store.rows[p.id];
            q.expiryDate != q.productionDate + q.shelfLifeDays
  {
  }

  /**
   * From the form to the table: a product the form lets through is stored
   * under a fresh id with the form's values whenever its expiry date is inside
   * the range of `LocalDate` and the id space is not exhausted. On its
   * production day it is not expired and has its whole shelf life ahead of it.
   * When the expiry date lies beyond that range, neither the calendar nor the
   * table is touched.
   */
  lemma SavedFormIsStored(name: string, dateText: string, shelfLifeText: string,
                          parseDate: string -> Option<EpochDay>, s: ProductDao.Store,
                          created: Option<Int64>)
    requires ProductDao.Valid(s)
    requires AddForm.OnSave(name, dateText, shelfLifeText, parseDate).Save?
    ensures var o := AddForm.OnSave(name, dateText, shelfLifeText, parseDate);
            var r := AddProduct(s, o.name, o.productionDate, o.shelfLifeDays, created);
            && (r.calls == [] <==> o.productionDate + o.shelfLifeDays > MaxEpochDay)
            && (r.calls == [] ==> r.store == s)
            && (r.id.Some? <==> o.productionDate + o.shelfLifeDays <= MaxEpochDay && s.lastId < ProductDao.MaxId)
            && (r.id.Some? ==>
                  && r.store.rows[r.id.value].name == name
                  && !IsExpired(r.store.rows[r.id.value], o.productionDate)
                  && DaysUntilExpiry(r.store.rows[r.id.value], o.productionDate) > 0)
  {
  }
}

=== FILE: status.dfy ===
/**
 * The freshness decision a product row shows: the status colour and the
 * status text chosen from the day count in `ProductItem`.
 */
module Status {
  import opened Numerals

  /** The three status colours: `ExpiredRed`, `WarningOrange`, `SafeGreen`. */
  datatype Status = Expired | Warning | Safe

  /** Highest day count that still shows the warning colour. */
  const WarningDays: int := 7

  /** The colour decision: expired below 0 days, warning up to 7 days, safe beyond. */
  function Classify(days: int): (s: Status)
    ensures s == Expired <==> days < 0
    ensures s == Warning <==> 0 <= days <= WarningDays
    ensures s == Safe <==> days > WarningDays
  {
    if days < 0 then Expired
    else if days <= WarningDays then Warning
    else Safe
  }

  /** How fresh a status is: a larger rank is never worse. */
  function Rank(s: Status): nat {
    match s
    case Expired => 0
    case Warning => 1
    case Safe => 2
  }

  /** More days left never gives a worse colour. */
  lemma ClassifyMonotone(a: int, b: int)
    requires a <= b
    ensures Rank(Classify(a)) <= Rank(Classify(b))
  {
  }

  /** The status text, before rendering. */
  datatype Label =
    | ExpiredFor(overdue: nat)   // "已过期 N 天"
    | DueToday                   // "今天到期"
    | DueTomorrow                // "明天到期"
    | Remaining(left: nat)       // "还剩 N 天"

  /** The text decision: overdue by N days, due today, due tomorrow, or N days left. */
  function LabelOf(days: int): (l: Label)
    ensures l.ExpiredFor? <==> Classify(days) == Expired
    ensures l.ExpiredFor? ==> l.overdue >= 1 && l.overdue == -days
    ensures l.DueToday? <==> days == 0
    ensures l.DueTomorrow? <==> days == 1
    ensures l.Remaining? <==> days >= 2
    ensures l.Remaining? ==> l.left == days
  {
    if days < 0 then ExpiredFor(-days)
    else if days == 0 then DueToday
    else if days == 1 then DueTomorrow
    else Remaining(days)
  }

  /** The text shown on the row. */
  function LabelText(l: Label): string {
    match l
    case ExpiredFor(n) => "已过期 " + Decimal(n) + " 天"
    case DueToday => "今天到期"
    case DueTomorrow => "明天到期"
    case Remaining(n) => "还剩 " + Decimal(n) + " 天"
  }

  /** The middle of `p + m + q` is recovered from the whole and its two ends. */
  lemma MiddleOfConcat(p: string, m1: string, m2: string, q: string)
    requires p + m1 + q == p + m2 + q
    ensures m1 == m2
  {
    var w := p + m1 + q;
    assert m1 == w[|p|..|w| - |q|];
    assert m2 == w[|p|..|w| - |q|];
  }

  /** The text on a row determines its day count: no two day counts read alike. */
  lemma LabelTextDeterminesDays(a: int, b: int)
    requires LabelText(LabelOf(a)) == LabelText(LabelOf(b))
    ensures a == b
  {
    var la, lb := LabelOf(a), LabelOf(b);
    var ta, tb := LabelText(la), LabelText(lb);
    assert ta[0] == tb[0];
    if la.ExpiredFor? && lb.ExpiredFor? {
      MiddleOfConcat("已过期 ", Decimal(la.overdue), Decimal(lb.overdue), " 天");
    } else if la.Remaining? && lb.Remaining? {
      MiddleOfConcat("还剩 ", Decimal(la.left), Decimal(lb.left), " 天");
    }
  }
}

=== FILE: wrappers.dfy ===
/** Optional values, used wherever the source returns a nullable (`T?`) result. */
module Wrappers {

  datatype Option<+T> = None | Some(value: T)
}
